=== FILE: README.md ===
# TinyCitadel core, modelled in Dafny

TinyCitadel is a small 2D engine: a physics library (`CitadelPhysicsEngine2D`) and an OpenGL application on top of it. This project models four parts of it that have behaviour you can state and check:

- **Physics predicates.** `AABB::AABBvsAABB` and `Circle::CirclevsCircle`, over the `Vec2`, `AABB` and `Circle` value types, with the scalar helpers `Square` and `Distance`. Both predicates keep the engine's polarity: `true` means the shapes do **not** collide. Touching boxes and tangent circles are reported as colliding (`false`). A `Collides` predicate with the readable polarity is derived from each one; the originals are kept as written.
- **The test routine's fixtures.** The eight fixtures of `RunPhysicsTests`, each stated as a fact.
- **`LayerStack`.** One ordered vector of owned layers, split by an insert index: layers come first, overlays after. It is modelled as a value (`seq<Slot>` plus the index). Each operation returns the new value together with the `OnAttach`/`OnDetach` hook calls it makes, in order.
- **`ShapeFactory`.** The vertex and index structure of `CreateTriangle` and `CreateCircle`, which builds a triangle fan.

Floats are modelled as mathematical reals. The square root in `Distance` is left abstract: the relation `IsDistance(a, b, d)` states that `d >= 0` and `d * d` equals the radicand.

Files, one module each:

- `math_types.dfy`: `MathTypes`
- `aabb.dfy`: `Aabb`
- `circle.dfy`: `Circles`
- `physics_tests.dfy`: `PhysicsTests`
- `layer_stack.dfy`: `LayerStacks`
- `shape_factory.dfy`: `ShapeFactory`

The doc comments in the engine say that `true` means "not colliding". The engine's own tests agree, and they expect `false` for tangent circles. The model follows the code, not a reading where `true` means overlap.

## Model

| member | source | states |
|---|---|---|
| MathTypes.Origin | physics/include/CitadelPhysicsEngine2D/MathTypes.h:8-11 | a default `Vec2` is (0, 0) |
| MathTypes.Square | physics/src/MathTypes.cpp:18 | the square of any real is non-negative |
| MathTypes.SquareIgnoresSign | physics/src/MathTypes.cpp:18 | `Square(-x) == Square(x)`, and `Square(x)` is zero exactly when `x` is zero |
| MathTypes.SquareMonotone | physics/src/MathTypes.cpp:18 | on non-negative reals, `x <= y` iff `Square(x) <= Square(y)`, and the same for `<` |
| MathTypes.DistanceRadicand | physics/src/MathTypes.cpp:8-15 | the value handed to the square root is never negative, so the root is always taken inside its domain |
| MathTypes.RadicandIsSumOfSquares | physics/src/MathTypes.cpp:10-15 | the radicand equals `Square(a.x - b.x) + Square(a.y - b.y)` |
| MathTypes.RadicandSymmetric | physics/src/MathTypes.cpp:10-13 | the radicand is symmetric in the two points, and it is zero exactly when the points are equal |
| MathTypes.IsDistance | physics/src/MathTypes.cpp:8-16 | `d` is the value `Distance` returns, the non-negative square root of the radicand; it is zero exactly when the two points are equal |
| MathTypes.DistanceUnique | physics/src/MathTypes.cpp:15 | at most one non-negative square root of the radicand exists, so `Distance` is well defined |
| MathTypes.DistanceProperties | physics/src/MathTypes.cpp:8-16 | the distance from a point to itself is 0, and distance is symmetric |
| Aabb.DefaultAABB | physics/include/CitadelPhysicsEngine2D/AABB.h:10-13 | a default box has both corners at the origin |
| Aabb.AABBvsAABB | physics/src/AABB.cpp:11-22 | true means "not colliding": for well-formed boxes the result is true exactly when the two closed boxes have no point in common; boxes that only touch give false |
| Aabb.SeparatedIffNoSharedPoint | physics/src/AABB.cpp:16-21 | for well-formed boxes, a strict separation on X or on Y holds exactly when no point lies in both closed boxes |
| Aabb.CollidesIffSharedPoint | physics/src/AABB.cpp:6-22 | for well-formed boxes, the test returns false ("colliding") exactly when the two closed boxes share a point |
| Aabb.AABBvsAABBCommutes | physics/src/AABB.cpp:16-19 | swapping the arguments never changes the result |
| Aabb.OneAxisSuffices | physics/src/AABB.cpp:16-19 | separation on X alone, or on Y alone, makes the result true, whatever the other axis does |
| Aabb.TouchingBoxesCollide | physics/src/AABB.cpp:16-19 | boxes that share only a vertical or a horizontal edge are reported as colliding |
| Aabb.SelfCollides | physics/src/AABB.cpp:16-21 | a well-formed box, including a zero-size one, collides with itself |
| Aabb.OverlapOnBothAxesCollides | physics/src/AABB.cpp:16-21 | boxes whose closed extents overlap on both axes are reported as colliding |
| Circles.DefaultCircleIsUnitAtOrigin | physics/include/CitadelPhysicsEngine2D/shapes/Circle.h:13-16 | a default circle has radius 1 and centre (0, 0) |
| Circles.CirclevsCircle | physics/src/shapes/Circle.cpp:14-21 | the result is true exactly when the squared radius sum is below the radicand that `Distance` computes for the two centres |
| Circles.CirclevsCircleCommutes | physics/src/shapes/Circle.cpp:16-20 | swapping the arguments never changes the result |
| Circles.TangentCirclesCollide | physics/src/shapes/Circle.cpp:20 | exactly tangent circles (squared distance equal to the squared radius sum) give false, so they count as colliding |
| Circles.ConcentricCirclesCollide | physics/src/shapes/Circle.cpp:17-20 | circles with the same centre give false, whatever their radii |
| Circles.GrowingRadiusKeepsCollision | physics/src/shapes/Circle.cpp:16-20 | with non-negative radii, growing either radius or both, centres fixed, never turns false ("colliding") into true ("apart") |
| Circles.ApartIffRadiusSumBelowDistance | physics/src/shapes/Circle.cpp:16-20 | with a non-negative radius sum, the result is true exactly when the radius sum is below the Euclidean distance between the centres |
| Circles.CollidesIffSharedPoint | physics/src/shapes/Circle.cpp:6-21 | for non-negative radii, the test returns false ("colliding") exactly when the two closed discs share a point |
| Circles.CommonPoint | physics/src/shapes/Circle.cpp:16-20 | for non-negative radii, when the test returns false, the point a fraction `t` (with `0 <= t <= 1`) of the way from the first centre to the second lies in both discs |
| Circles.SplitPointInBothDiscs | physics/src/shapes/Circle.cpp:16-20 | for non-negative radii with a positive sum `s`, the point `a.radius / s` of the way between colliding centres lies in both discs |
| Circles.SharedPointBoundsDistance | physics/src/shapes/Circle.cpp:16-20 | for non-negative radii, if a point lies in both discs, the squared centre distance is at most the squared radius sum |
| PhysicsTests.CircleFixtures | physics/src/PhysicsTests.cpp:17-33 | the three circle fixtures give false (distance 1), false (tangent, distance 2) and true (distance 3) |
| PhysicsTests.AabbFixtures | physics/src/PhysicsTests.cpp:38-66 | overlapping, touching on X and touching on Y give false; separated on X and separated on Y give true |
| LayerStacks.NewLayerStack | src/layers/LayerStack.cpp:8 | a new stack is empty, has insert index 0 and satisfies the split invariant |
| LayerStacks.RegionsPartitionStack | src/core/LayerStack.h:48-50 | the layer region `[0, idx)` followed by the overlay region `[idx, size)` is the whole vector |
| LayerStacks.StackDeterminedByRegions | src/core/LayerStack.h:46-50 | a valid stack is fully determined by its layer region and its overlay region |
| LayerStacks.PushLayer | src/layers/LayerStack.cpp:35-41 | keeps the split invariant; the pushed layer becomes the last layer; the overlays are unchanged and keep their order; `OnAttach` fires exactly once, on the pushed layer |
| LayerStacks.PushOverlay | src/layers/LayerStack.cpp:43-47 | keeps the split invariant; the pushed overlay becomes the last overlay; the layers and the insert index are unchanged; `OnAttach` fires once, on it |
| LayerStacks.FindIf | src/layers/LayerStack.cpp:54-56 | returns the first position in `[lo, hi)` holding the searched pointer, or `hi` when there is none |
| LayerStacks.RemoveFirstCounts | src/layers/LayerStack.cpp:58-63 | removing the first match drops exactly one copy of it; with no match nothing changes |
| LayerStacks.PopLayer | src/layers/LayerStack.cpp:52-64 | searches only the layer region; the layers become the layer region without its first match; the overlays are unchanged; `OnDetach` fires once exactly when there was a match; with no match (an overlay included) the stack is unchanged |
| LayerStacks.PopOverlay | src/layers/LayerStack.cpp:66-78 | searches only the overlay region; the overlays become the overlay region without its first match; the layers and the index are unchanged; `OnDetach` fires once exactly when there was a match; with no match the stack is unchanged |
| LayerStacks.PopLayerRemovesOne | src/layers/LayerStack.cpp:58-63 | a successful layer pop removes exactly one slot; every other slot is kept, as often as before |
| LayerStacks.PopOverlayRemovesOne | src/layers/LayerStack.cpp:73-77 | a successful overlay pop removes exactly one slot; every other slot is kept, as often as before |
| LayerStacks.PushLayerThenPopLayer | src/layers/LayerStack.cpp:35-64 | pushing a layer that is not yet a layer and then popping it restores the original stack and index; it fires attach and then detach |
| LayerStacks.PushOverlayThenPopOverlay | src/layers/LayerStack.cpp:43-78 | pushing an overlay that is not yet an overlay and then popping it restores the original stack; it fires attach and then detach |
| LayerStacks.PushesKeepOwnershipUnique | src/layers/LayerStack.cpp:35-47 | pushing a layer that is not already owned keeps every live layer owned by exactly one slot |
| LayerStacks.PopLayerKeepsOwnershipUnique | src/layers/LayerStack.cpp:52-64 | popping a layer keeps every live layer owned by exactly one slot |
| LayerStacks.PopOverlayKeepsOwnershipUnique | src/layers/LayerStack.cpp:66-78 | popping an overlay keeps every live layer owned by exactly one slot |
| LayerStacks.Clear | src/layers/LayerStack.cpp:19-33 | fires `OnDetach` once per non-null slot, from the last slot to the first; the stack is then empty with insert index 0 |
| LayerStacks.Destroy | src/layers/LayerStack.cpp:10-17 | the destructor detaches every live layer once, last first; an empty stack fires nothing |
| LayerStacks.ValidateLayers | src/layers/LayerStack.cpp:80 | always reports success |
| ShapeFactory.CreateTriangle | src/renderer/ShapeFactory.cpp:8-42 | 3 vertices in the z = 0 plane, indices `{0, 1, 2}`, index count 3, every index in bounds, wound counter-clockwise (positive signed area) |
| ShapeFactory.CreateCircle | src/renderer/ShapeFactory.cpp:44-74 | the centre plus `segments + 1` rim points; index count `3 * segments`; triangle `k` is `(0, k + 1, k + 2)`, that is the centre and rim points `k` and `k + 1`; every index is below the vertex count |
| ShapeFactory.CircleFanStructure | src/renderer/ShapeFactory.cpp:65-74 | neighbouring fan triangles share a rim vertex; zero segments give no indices; the largest index, `segments + 1`, comes last |
| ShapeFactory.RimCounterWraps | src/renderer/ShapeFactory.cpp:53 | the rim loop's 32-bit counter after `n` increments is `n mod 2^32` |
| ShapeFactory.RimLoopExitsBelowMax | src/renderer/ShapeFactory.cpp:53 | below the largest 32-bit value, the rim loop's guard holds for exactly `segments + 1` iterations |
| ShapeFactory.RimLoopNeverExitsAtMax | src/renderer/ShapeFactory.cpp:53 | at `segments = 2^32 - 1` the guard holds after every number of iterations, and the counter returns to 0 |

## Left out

- Printing: the console messages of `Clear` and of the test routine.
- Hook calls on null slots: `Clear` skips null slots. The push and pop paths that would call a hook on a null slot dereference null, and they are excluded by the lines below. A slot can only become null if outside code moves a layer out through the iterators.
- The layer iterators (`begin`, `end`, `rbegin`, `rend`): they only expose the vector, which the model exposes as `slots`.
- The `Layer` class itself (its name, `OnUpdate`, `OnRender`, destructor): a layer is an opaque identity, and its hooks are `Hook` events.
- LayerStacks.PopLayer: a raw null pointer is allowed only when the searched region holds no null slot. If it does, the engine dereferences a null pointer.
- LayerStacks.PopOverlay: the same restriction on a raw null pointer applies.
- LayerStacks.PushLayer: takes a layer identity, never null. Pushing an empty `unique_ptr` dereferences null in the engine.
- LayerStacks.PushOverlay: takes a layer identity, never null. Pushing an empty `unique_ptr` as an overlay dereferences null in the engine when it calls the hook on the appended slot.
- The insert index is a `uint32_t` in the engine and a `nat` here. Its width only matters after 2^32 pushes.
- The GPU side of `ShapeFactory`: vertex array and buffer handles, buffer uploads, attribute setup and `DestroyMesh`. These are foreign OpenGL calls.
- The rim point coordinates, computed with `cosf`, `sinf` and `M_PI`: `Rim(step)` names the point at step `step` of the circle. The division by zero in the angle at zero segments is also left out.
- ShapeFactory.CreateCircle: index values and the index count are unbounded numbers here. In the engine they are 32-bit, so the index count wraps from 1431655766 segments on. At that size the index vector alone holds about 17 GB of 4-byte indices, and the vertex vector about 17 GB of 12-byte vertices.
- ShapeFactory.CreateCircle: the counter-clockwise winding the factory promises for every mesh is not stated for the fan. It depends on the `cosf`/`sinf` rim coordinates, which are not modelled.
- ShapeFactory.CreateTriangle: the byte count handed to the element buffer upload is GPU-facing and not modelled.
- `CreateRectangle` and the two-argument `CreateCircle(segments, radius)` are declared in `src/renderer/ShapeFactory.h`, but no definition of either exists.
- `physics/include/CitadelPhysicsEngine2D/shapes/AABB.h` is a duplicate box over `glm::vec2` with the same shape as `Aabb.AABB`.
- `Renderer::CreateTriangleVertices`: window-dependent floating-point geometry.
- MathTypes.DistanceRadicand: the square root in `Distance` is abstract. Its result is described by the relation `MathTypes.IsDistance`, not computed.
- IEEE-754 rounding, NaN and infinity: coordinates and radii are reals.

## Findings

| source | as written | input that shows it | evidently intended | confidence | as-written member | corrected member |
|---|---|---|---|---|---|---|
| src/renderer/ShapeFactory.cpp:53 | the rim loop counts with a 32-bit unsigned counter and runs while the counter is at most `segments`; at the largest 32-bit value the counter wraps to 0 instead of exceeding it | `CreateCircle(4294967295)` | the loop runs `segments + 1` times and stops | not executed; high, since it follows from unsigned wrap-around | ShapeFactory.RimLoopNeverExitsAtMax | ShapeFactory.CreateCircle |

=== FILE: aabb.dfy ===
/**
  Axis-aligned bounding boxes and the box-versus-box test of the physics
  engine. The test keeps the engine's polarity: `AABBvsAABB` answers
  true when the boxes do NOT collide.
 */
module Aabb {
  import opened MathTypes

  /** A box given by its minimum and maximum corner. */
  datatype AABB = AABB(min: Vec2, max: Vec2)

  /** The value of a default-constructed box: both corners at the origin. */
  function DefaultAABB(): (b: AABB)
    ensures b.min == b.max == Origin()
  {
    AABB(Origin(), Origin())
  }

  /** A box whose minimum corner does not exceed its maximum corner on either axis. */
  predicate WellFormed(b: AABB)
  {
    b.min.x <= b.max.x && b.min.y <= b.max.y
  }

  /** The two boxes are strictly apart on the X axis. */
  predicate SeparatedOnX(a: AABB, b: AABB)
  {
    a.max.x < b.min.x || a.min.x > b.max.x
  }

  /** The two boxes are strictly apart on the Y axis. */
  predicate SeparatedOnY(a: AABB, b: AABB)
  {
    a.max.y < b.min.y || a.min.y > b.max.y
  }

  /** A point lies in the closed box, boundary included. */
  ghost predicate InBox(p: Vec2, b: AABB)
  {
    b.min.x <= p.x <= b.max.x && b.min.y <= p.y <= b.max.y
  }

  /**
    For well-formed boxes, a strict separation on one axis is the same as
    the two closed boxes having no point in common. When neither axis
    separates them, the larger of the two minimum corners lies in both.
   */
  lemma SeparatedIffNoSharedPoint(a: AABB, b: AABB)
    ensures WellFormed(a) && WellFormed(b) ==>
      (SeparatedOnX(a, b) || SeparatedOnY(a, b) <==> !exists p :: InBox(p, a) && InBox(p, b))
  {
    if WellFormed(a) && WellFormed(b) && !SeparatedOnX(a, b) && !SeparatedOnY(a, b) {
      var px := if a.min.x < b.min.x then b.min.x else a.min.x;
      var py := if a.min.y < b.min.y then b.min.y else a.min.y;
      assert InBox(Vec2(px, py), a) && InBox(Vec2(px, py), b);
    }
  }

  /**
    The engine's box test: true ("not colliding") as soon as one axis
    separates the boxes, false ("colliding") otherwise. The comparisons
    are strict, so boxes that only touch are reported as colliding; for
    well-formed boxes the answer is true exactly when the closed boxes
    have no point in common.
   */
  function AABBvsAABB(a: AABB, b: AABB): (apart: bool)
    ensures apart <==> SeparatedOnX(a, b) || SeparatedOnY(a, b)
    ensures WellFormed(a) && WellFormed(b) ==> (apart <==> !exists p :: InBox(p, a) && InBox(p, b))
  {
    SeparatedIffNoSharedPoint(a, b);
    if a.max.x < b.min.x || a.min.x > b.max.x then
      true
    else if a.max.y < b.min.y || a.min.y > b.max.y then
      true
    else
      false
  }

  /** The readable polarity: the boxes collide exactly when the engine's test says false. */
  predicate Collides(a: AABB, b: AABB)
  {
    !AABBvsAABB(a, b)
  }

  /**
    Geometric meaning of the test: for well-formed boxes, the engine
    reports a collision exactly when the two closed boxes share a point.
   */
  lemma CollidesIffSharedPoint(a: AABB, b: AABB)
    requires WellFormed(a) && WellFormed(b)
    ensures Collides(a, b) <==> exists p :: InBox(p, a) && InBox(p, b)
  {
  }

  /** The test does not depend on the order of its arguments. */
  lemma AABBvsAABBCommutes(a: AABB, b: AABB)
    ensures AABBvsAABB(a, b) == AABBvsAABB(b, a)
  {
  }

  /** Separation on one axis decides the test, whatever the other axis does. */
  lemma OneAxisSuffices(a: AABB, b: AABB)
    ensures SeparatedOnX(a, b) ==> AABBvsAABB(a, b)
    ensures SeparatedOnY(a, b) ==> AABBvsAABB(a, b)
  {
  }

  /**
    Boxes that share only an edge, whether a vertical edge (X) or a
    horizontal one (Y), are reported as colliding.
   */
  lemma TouchingBoxesCollide(a: AABB, b: AABB)
    requires WellFormed(a) && WellFormed(b)
    requires (a.max.x == b.min.x && a.min.y <= b.max.y && b.min.y <= a.max.y)
          || (a.max.y == b.min.y && a.min.x <= b.max.x && b.min.x <= a.max.x)
    ensures !AABBvsAABB(a, b)
  {
  }

  /** A well-formed box, even one of zero size, collides with itself. */
  lemma SelfCollides(a: AABB)
    requires WellFormed(a)
    ensures !AABBvsAABB(a, a)
  {
  }

  /** Boxes whose closed extents overlap on both axes are reported as colliding. */
  lemma OverlapOnBothAxesCollides(a: AABB, b: AABB)
    requires a.min.x <= b.max.x && b.min.x <= a.max.x
    requires a.min.y <= b.max.y && b.min.y <= a.max.y
    ensures !AABBvsAABB(a, b)
  {
  }
}

=== FILE: circle.dfy ===
/**
  Circles and the circle-versus-circle test of the physics engine. As for
  boxes, the test keeps the engine's polarity: `CirclevsCircle` answers
  true when the circles do NOT collide.
 */
module Circles {
  import opened MathTypes

  /** A disc given by its radius and the position of its centre. */
  datatype Circle = Circle(radius: real, position: Vec2)

  /** The constructor's defaults: radius one, centred at the origin. */
  function MakeCircle(radius: real := 1.0, position: Vec2 := Origin()): Circle
  {
    Circle(radius, position)
  }

  /** A default-constructed circle is the unit circle at the origin. */
  lemma DefaultCircleIsUnitAtOrigin()
    ensures MakeCircle() == Circle(1.0, Vec2(0.0, 0.0))
    ensures MakeCircle(2.0) == Circle(2.0, Vec2(0.0, 0.0))
  {
  }

  /**
    The engine's circle test: the sum of the radii and the centre offsets
    are formed, and the test answers true ("not colliding") when the
    squared radius sum is strictly below the squared centre distance.
    Exactly tangent circles are therefore reported as colliding.
   */
  function CirclevsCircle(a: Circle, b: Circle): (apart: bool)
    ensures apart <==> Square(a.radius + b.radius) < DistanceRadicand(a.position, b.position)
  {
    var r := a.radius + b.radius;
    var x := a.position.x - b.position.x;
    var y := a.position.y - b.position.y;
    (r * r) < ((x * x) + (y * y))
  }

  /** The readable polarity: the circles collide exactly when the engine's test says false. */
  predicate Collides(a: Circle, b: Circle)
  {
    !CirclevsCircle(a, b)
  }

  /** The test does not depend on the order of its arguments. */
  lemma CirclevsCircleCommutes(a: Circle, b: Circle)
    ensures CirclevsCircle(a, b) == CirclevsCircle(b, a)
  {
    RadicandSymmetric(a.position, b.position);
    assert a.radius + b.radius == b.radius + a.radius;
  }

  /** Circles whose squared centre distance equals the squared radius sum (tangent circles) collide. */
  lemma TangentCirclesCollide(a: Circle, b: Circle)
    requires DistanceRadicand(a.position, b.position) == Square(a.radius + b.radius)
    ensures !CirclevsCircle(a, b)
  {
  }

  /** Concentric circles collide, whatever their radii. */
  lemma ConcentricCirclesCollide(a: Circle, b: Circle)
    requires a.position == b.position
    ensures !CirclevsCircle(a, b)
  {
    RadicandSymmetric(a.position, b.position);
  }

  /**
    With non-negative radii, growing either circle (or both) while keeping
    the centres can turn "apart" into "colliding" but never the reverse.
   */
  lemma GrowingRadiusKeepsCollision(a: Circle, b: Circle, a': Circle, b': Circle)
    requires a'.position == a.position && b'.position == b.position
    requires 0.0 <= a.radius <= a'.radius && 0.0 <= b.radius <= b'.radius
    ensures Collides(a, b) ==> Collides(a', b')
  {
    SquareMonotone(a.radius + b.radius, a'.radius + b'.radius);
  }

  /**
    In terms of the true Euclidean distance `d` between the centres (the
    value `Distance` returns) and a non-negative radius sum, the circles are
    apart exactly when the radius sum is below that distance.
   */
  lemma ApartIffRadiusSumBelowDistance(a: Circle, b: Circle, d: real)
    requires IsDistance(a.position, b.position, d)
    requires a.radius + b.radius >= 0.0
    ensures CirclevsCircle(a, b) <==> a.radius + b.radius < d
  {
    SquareMonotone(a.radius + b.radius, d);
  }

  /** A point lies in the closed disc, its rim included. */
  ghost predicate InDisc(p: Vec2, c: Circle)
  {
    DistanceRadicand(p, c.position) <= Square(c.radius)
  }

  /**
    Geometric meaning of the test: for circles with non-negative radii,
    the engine reports a collision exactly when the two closed discs share
    a point.
   */
  lemma CollidesIffSharedPoint(a: Circle, b: Circle)
    requires 0.0 <= a.radius && 0.0 <= b.radius
    ensures Collides(a, b) <==> exists p :: InDisc(p, a) && InDisc(p, b)
  {
    if Collides(a, b) {
      var p, t := CommonPoint(a, b);
    }
    if p :| InDisc(p, a) && InDisc(p, b) {
      SharedPointBoundsDistance(a, b, p);
    }
  }

  /** The point a fraction `t` of the way from `c` towards `e`. */
  function PointAlong(c: Vec2, e: Vec2, t: real): Vec2
  {
    Vec2(c.x + t * (e.x - c.x), c.y + t * (e.y - c.y))
  }

  /**
    When the circles collide, a point on the segment between the centres
    (a fraction `t` of the way from `a`'s centre) lies in both discs.
   */
  lemma CommonPoint(a: Circle, b: Circle) returns (p: Vec2, t: real)
    requires 0.0 <= a.radius && 0.0 <= b.radius
    requires Collides(a, b)
    ensures 0.0 <= t <= 1.0
    ensures p == PointAlong(a.position, b.position, t)
    ensures InDisc(p, a) && InDisc(p, b)
  {
    var s := a.radius + b.radius;
    if s == 0.0 {
      t := 0.0;
      p := a.position;
      CentresMeet(a, b);
    } else {
      t := a.radius / s;
      p := PointAlong(a.position, b.position, t);
      SplitPointInBothDiscs(a, b, s, t);
    }
  }

  /** Two colliding circles of radius zero share their centre, which lies in both. */
  lemma CentresMeet(a: Circle, b: Circle)
    requires a.radius == 0.0 && b.radius == 0.0
    requires Collides(a, b)
    ensures a.position == PointAlong(a.position, b.position, 0.0)
    ensures InDisc(a.position, a) && InDisc(a.position, b)
  {
    RadicandSymmetric(a.position, b.position);
    RadicandSymmetric(a.position, a.position);
  }

  /**
    With a positive radius sum `s`, the point `a.radius / s` of the way from
    `a`'s centre lies in both discs, when the circles collide.
   */
  lemma SplitPointInBothDiscs(a: Circle, b: Circle, s: real, t: real)
    requires 0.0 <= a.radius && 0.0 <= b.radius
    requires s == a.radius + b.radius && 0.0 < s && t == a.radius / s
    requires Collides(a, b)
    ensures 0.0 <= t <= 1.0
    ensures InDisc(PointAlong(a.position, b.position, t), a)
    ensures InDisc(PointAlong(a.position, b.position, t), b)
  {
    var p := PointAlong(a.position, b.position, t);
    var u := b.radius / s;
    FractionsSumToOne(a.radius, b.radius, s);
    ScaledRadicand(a.position, b.position, p, t, a.radius, s);
    PointAlongReversed(a.position, b.position, t, u);
    RadicandSymmetric(a.position, b.position);
    ScaledRadicand(b.position, a.position, p, u, b.radius, s);
  }

  /** The two radii, each divided by their positive sum, are fractions adding up to one. */
  lemma FractionsSumToOne(ra: real, rb: real, s: real)
    requires 0.0 <= ra && 0.0 <= rb && s == ra + rb && 0.0 < s
    ensures ra / s + rb / s == 1.0
    ensures 0.0 <= ra / s <= 1.0 && 0.0 <= rb / s
  {
    assert ra / s + rb / s == (ra + rb) / s;
  }

  /** Going a fraction `t` from `c` to `e` reaches the point a fraction `1 - t` from `e` to `c`. */
  lemma PointAlongReversed(c: Vec2, e: Vec2, t: real, u: real)
    requires t + u == 1.0
    ensures PointAlong(c, e, t) == PointAlong(e, c, u)
  {
    LerpReversed(c.x, e.x, t, u);
    LerpReversed(c.y, e.y, t, u);
    var p, q := PointAlong(c, e, t), PointAlong(e, c, u);
    assert p.x == q.x && p.y == q.y;
  }

  /** The coordinate form of `PointAlongReversed`. */
  lemma LerpReversed(c: real, e: real, t: real, u: real)
    requires t + u == 1.0
    ensures c + t * (e - c) == e + u * (c - e)
  {
    var d := e - c;
    calc {
      e + u * (c - e);
      e + u * (-d);
      e - u * d;
    == { assert u * d == d - t * d; }
      e - d + t * d;
      c + t * (e - c);
    }
  }

  /**
    A point `p` a fraction `t = r / s` of the way from `c` towards `e`
    is within `r` of `c` when `e` is within `s` of `c`.
   */
  lemma ScaledRadicand(c: Vec2, e: Vec2, p: Vec2, t: real, r: real, s: real)
    requires 0.0 < s && 0.0 <= r && t == r / s
    requires p == PointAlong(c, e, t)
    requires DistanceRadicand(c, e) <= Square(s)
    ensures DistanceRadicand(p, c) <= Square(r)
  {
    var dx := e.x - c.x;
    var dy := e.y - c.y;
    assert t * s == r;
    calc {
      DistanceRadicand(p, c);
      (t * dx) * (t * dx) + (t * dy) * (t * dy);
      (t * t) * (dx * dx + dy * dy);
    == { RadicandSymmetric(c, e); }
      (t * t) * DistanceRadicand(c, e);
    <= { MulMono(DistanceRadicand(c, e), Square(s), t * t); }
      (t * t) * Square(s);
      (t * s) * (t * s);
      Square(r);
    }
  }

  /** If a point lies in both discs, the centres are at most the radius sum apart. */
  lemma SharedPointBoundsDistance(a: Circle, b: Circle, p: Vec2)
    requires 0.0 <= a.radius && 0.0 <= b.radius
    requires InDisc(p, a) && InDisc(p, b)
    ensures DistanceRadicand(a.position, b.position) <= Square(a.radius + b.radius)
  {
    var ux := p.x - a.position.x;
    var uy := p.y - a.position.y;
    var vx := b.position.x - p.x;
    var vy := b.position.y - p.y;
    RadicandSymmetric(p, a.position);
    RadicandSymmetric(a.position, b.position);
    assert b.position.x - a.position.x == ux + vx;
    assert b.position.y - a.position.y == uy + vy;
    SumBounded(ux, uy, vx, vy, a.radius, b.radius);
  }

  /** Triangle inequality, squared: `|u + v|` is at most the sum of the bounds on `|u|` and `|v|`. */
  lemma SumBounded(ux: real, uy: real, vx: real, vy: real, ra: real, rb: real)
    requires 0.0 <= ra && 0.0 <= rb
    requires ux * ux + uy * uy <= Square(ra)
    requires vx * vx + vy * vy <= Square(rb)
    ensures (ux + vx) * (ux + vx) + (uy + vy) * (uy + vy) <= Square(ra + rb)
  {
    DotBounded(ux, uy, vx, vy, ra, rb);
    calc {
      (ux + vx) * (ux + vx) + (uy + vy) * (uy + vy);
      (ux * ux + uy * uy) + 2.0 * (ux * vx + uy * vy) + (vx * vx + vy * vy);
    <=
      Square(ra) + 2.0 * (ra * rb) + Square(rb);
      Square(ra + rb);
    }
  }

  /**
    Cauchy-Schwarz in the plane, squared: the dot product of `u` and `v`
    is at most the product of the bounds on their lengths.
   */
  lemma DotBounded(ux: real, uy: real, vx: real, vy: real, ra: real, rb: real)
    requires 0.0 <= ra && 0.0 <= rb
    requires ux * ux + uy * uy <= Square(ra)
    requires vx * vx + vy * vy <= Square(rb)
    ensures ux * vx + uy * vy <= ra * rb
  {
    var uv := ux * vx + uy * vy;
    var uu := ux * ux + uy * uy;
    var vv := vx * vx + vy * vy;
    if 0.0 < uv {
      var w := ux * vy - uy * vx;
      calc {
        Square(uv);
        uu * vv - w * w;
      <= { assert 0.0 <= Square(w); }
        uu * vv;
      <= { MulMono(uu, Square(ra), vv); }
        Square(ra) * vv;
      <= { MulMono(vv, Square(rb), Square(ra)); }
        Square(ra) * Square(rb);
        Square(ra * rb);
      }
      MulMono(0.0, ra, rb);
      SquareMonotone(uv, ra * rb);
    } else {
      MulMono(0.0, ra, rb);
    }
  }
}

=== FILE: layer_stack.dfy ===
/**
  The application's layer stack: one ordered vector of owned layers split
  by an insert index. Entries before the index are ordinary layers, the
  rest are overlays, so overlays are always updated and rendered after
  every layer.

  A layer is represented by an opaque identity; its `OnAttach` and
  `OnDetach` hooks become `Hook` events returned by each operation, in the
  order the stack fires them. The stack itself is a value, and each
  operation returns the new value with the hooks it fired.
 */
module LayerStacks {

  /** The identity of a `Layer` object (its address in the program). */
  type LayerId = nat

  /** One owning slot of the vector; a slot whose layer was moved out holds null. */
  datatype Slot = Null | Live(id: LayerId)

  /** A hook call made on a layer. */
  datatype Hook = Attach(id: LayerId) | Detach(id: LayerId)

  /** The owned slots and the insert index that splits layers from overlays. */
  datatype LayerStack = LayerStack(slots: seq<Slot>, insertIndex: nat)

  /** The state after an operation, with the hooks fired during it, in order. */
  datatype Outcome = Outcome(stack: LayerStack, hooks: seq<Hook>)

  /** The split invariant: the insert index lies within the vector. */
  predicate Valid(s: LayerStack)
  {
    s.insertIndex <= |s.slots|
  }

  /** The layer region `[0, insertIndex)`. */
  function Layers(s: LayerStack): seq<Slot>
    requires Valid(s)
  {
    s.slots[..s.insertIndex]
  }

  /** The overlay region `[insertIndex, size)`. */
  function Overlays(s: LayerStack): seq<Slot>
    requires Valid(s)
  {
    s.slots[s.insertIndex..]
  }

  /** The two regions together make up the whole stack, layers first. */
  lemma RegionsPartitionStack(s: LayerStack)
    requires Valid(s)
    ensures Layers(s) + Overlays(s) == s.slots
    ensures |Layers(s)| == s.insertIndex
  {
  }

  /** Two valid stacks with the same layers and the same overlays are the same stack. */
  lemma StackDeterminedByRegions(s: LayerStack, t: LayerStack)
    requires Valid(s) && Valid(t)
    requires Layers(s) == Layers(t) && Overlays(s) == Overlays(t)
    ensures s == t
  {
    RegionsPartitionStack(s);
    RegionsPartitionStack(t);
  }

  /** Every live layer is owned by exactly one slot, as `unique_ptr` ownership guarantees. */
  predicate UniqueOwnership(xs: seq<Slot>)
  {
    forall i, j :: 0 <= i < j < |xs| && xs[i].Live? ==> xs[i] != xs[j]
  }

  /** A freshly constructed stack: empty, with the insert index at zero. */
  function NewLayerStack(): (s: LayerStack)
    ensures Valid(s) && |s.slots| == 0
    ensures Layers(s) == [] && Overlays(s) == []
  {
    LayerStack([], 0)
  }

  /**
    Inserts `x` at the insert index and moves the index past it, then
    fires `OnAttach` on it: `x` becomes the last layer, below every
    overlay.
   */
  function PushLayer(s: LayerStack, x: LayerId): (r: Outcome)
    requires Valid(s)
    ensures Valid(r.stack)
    ensures Layers(r.stack) == Layers(s) + [Live(x)]
    ensures Overlays(r.stack) == Overlays(s)
    ensures r.hooks == [Attach(x)]
  {
    var i := s.insertIndex;
    Outcome(LayerStack(s.slots[..i] + [Live(x)] + s.slots[i..], i + 1), [Attach(x)])
  }

  /** Appends `x` at the end, leaving the insert index alone, then fires `OnAttach` on it. */
  function PushOverlay(s: LayerStack, x: LayerId): (r: Outcome)
    requires Valid(s)
    ensures Valid(r.stack)
    ensures Layers(r.stack) == Layers(s)
    ensures Overlays(r.stack) == Overlays(s) + [Live(x)]
    ensures r.hooks == [Attach(x)]
  {
    Outcome(LayerStack(s.slots + [Live(x)], s.insertIndex), [Attach(x)])
  }

  /**
    The position of the first slot in `[lo, hi)` holding `p`, or `hi` when
    there is none, as `std::find_if` over that range returns.
   */
  function FindIf(xs: seq<Slot>, lo: nat, hi: nat, p: Slot): (k: nat)
    requires lo <= hi <= |xs|
    ensures lo <= k <= hi
    ensures k < hi ==> xs[k] == p
    ensures forall j :: lo <= j < k ==> xs[j] != p
    decreases hi - lo
  {
    if lo == hi then hi
    else if xs[lo] == p then lo
    else FindIf(xs, lo + 1, hi, p)
  }

  /** Reference definition: `xs` without its first occurrence of `p`, unchanged when `p` is absent. */
  function RemoveFirst(xs: seq<Slot>, p: Slot): seq<Slot>
  {
    if |xs| == 0 then []
    else if xs[0] == p then xs[1..]
    else [xs[0]] + RemoveFirst(xs[1..], p)
  }

  /** Erasing the slot at the first occurrence of `p` is removing the first occurrence of `p`. */
  lemma {:induction false} EraseFirstIsRemoveFirst(xs: seq<Slot>, p: Slot, k: nat)
    requires k < |xs| && xs[k] == p
    requires forall j :: 0 <= j < k ==> xs[j] != p
    ensures RemoveFirst(xs, p) == xs[..k] + xs[k + 1..]
    decreases k
  {
    if k > 0 {
      var ys := xs[1..];
      assert ys[k - 1] == p;
      EraseFirstIsRemoveFirst(ys, p, k - 1);
      calc {
        RemoveFirst(xs, p);
        [xs[0]] + RemoveFirst(ys, p);
        [xs[0]] + (ys[..k - 1] + ys[k..]);
      == { assert ys[..k - 1] == xs[1..k]; assert ys[k..] == xs[k + 1..]; }
        [xs[0]] + (xs[1..k] + xs[k + 1..]);
      == { assert [xs[0]] + xs[1..k] == xs[..k]; }
        xs[..k] + xs[k + 1..];
      }
    }
  }

  /** Removing an absent value changes nothing. */
  lemma {:induction false} RemoveAbsent(xs: seq<Slot>, p: Slot)
    requires p !in xs
    ensures RemoveFirst(xs, p) == xs
  {
    if |xs| > 0 {
      RemoveAbsent(xs[1..], p);
      assert [xs[0]] + xs[1..] == xs;
    }
  }

  /** Removing the value just appended to a sequence that lacked it gives the sequence back. */
  lemma {:induction false} RemoveLastAppended(xs: seq<Slot>, p: Slot)
    requires p !in xs
    ensures RemoveFirst(xs + [p], p) == xs
  {
    if |xs| > 0 {
      assert (xs + [p])[1..] == xs[1..] + [p];
      RemoveLastAppended(xs[1..], p);
      assert [xs[0]] + xs[1..] == xs;
    }
  }

  /**
    Removing the first occurrence keeps every other element, each exactly
    as often as before. (`EraseFirstIsRemoveFirst` gives the order: the
    result is the sequence with that one position cut out.)
   */
  lemma {:induction false} RemoveFirstCounts(xs: seq<Slot>, p: Slot)
    ensures p in xs ==> multiset(RemoveFirst(xs, p)) + multiset{p} == multiset(xs)
    ensures p !in xs ==> RemoveFirst(xs, p) == xs
  {
    if |xs| > 0 {
      RemoveFirstCounts(xs[1..], p);
      assert [xs[0]] + xs[1..] == xs;
      if xs[0] != p {
        assert multiset(xs) == multiset{xs[0]} + multiset(xs[1..]);
      }
    }
  }

  /** Erasing position `k` before the split point `i` erases it from the prefix and keeps the suffix. */
  lemma EraseBeforeSplit(xs: seq<Slot>, i: nat, k: nat)
    requires k < i <= |xs|
    ensures (xs[..k] + xs[k + 1..])[..i - 1] == xs[..i][..k] + xs[..i][k + 1..]
    ensures (xs[..k] + xs[k + 1..])[i - 1..] == xs[i..]
  {
    var e := xs[..k] + xs[k + 1..];
    assert forall j :: 0 <= j < i - 1 ==> e[j] == (if j < k then xs[j] else xs[j + 1]);
    assert forall j :: i - 1 <= j < |e| ==> e[j] == xs[j + 1];
  }

  /** Erasing position `k` at or after the split point `i` keeps the prefix and erases it from the suffix. */
  lemma EraseAfterSplit(xs: seq<Slot>, i: nat, k: nat)
    requires i <= k < |xs|
    ensures (xs[..k] + xs[k + 1..])[..i] == xs[..i]
    ensures (xs[..k] + xs[k + 1..])[i..] == xs[i..][..k - i] + xs[i..][k - i + 1..]
  {
    var e := xs[..k] + xs[k + 1..];
    assert forall j :: 0 <= j < i ==> e[j] == xs[j];
    assert forall j :: i <= j < |e| ==> e[j] == (if j < k then xs[j] else xs[j + 1]);
  }

  /**
    Searches only the layer region for `p`. When found, fires `OnDetach` on
    it, erases it and moves the insert index back by one; otherwise, even
    when `p` is an overlay, nothing happens. A null `p` would dereference a
    null slot of the layer region, so it is only allowed when there is none.
   */
  function PopLayer(s: LayerStack, p: Slot): (r: Outcome)
    requires Valid(s)
    requires p.Null? ==> Null !in Layers(s)
    ensures Valid(r.stack)
    ensures Layers(r.stack) == RemoveFirst(Layers(s), p)
    ensures Overlays(r.stack) == Overlays(s)
    ensures r.hooks == if p in Layers(s) then [Detach(p.id)] else []
    ensures p !in Layers(s) ==> r.stack == s
  {
    var i := s.insertIndex;
    var k := FindIf(s.slots, 0, i, p);
    if k != i then
      var r := Outcome(LayerStack(s.slots[..k] + s.slots[k + 1..], i - 1), [Detach(s.slots[k].id)]);
      assert Layers(s)[k] == p;
      EraseBeforeSplit(s.slots, i, k);
      EraseFirstIsRemoveFirst(Layers(s), p, k);
      r
    else
      RemoveAbsent(Layers(s), p);
      Outcome(s, [])
  }

  /**
    Searches only the overlay region for `p`. When found, fires `OnDetach`
    on it and erases it; the insert index never moves. Otherwise nothing
    happens. A null `p` is only allowed when no overlay slot is null.
   */
  function PopOverlay(s: LayerStack, p: Slot): (r: Outcome)
    requires Valid(s)
    requires p.Null? ==> Null !in Overlays(s)
    ensures Valid(r.stack)
    ensures Layers(r.stack) == Layers(s)
    ensures Overlays(r.stack) == RemoveFirst(Overlays(s), p)
    ensures r.hooks == if p in Overlays(s) then [Detach(p.id)] else []
    ensures p !in Overlays(s) ==> r.stack == s
  {
    var i := s.insertIndex;
    var k := FindIf(s.slots, i, |s.slots|, p);
    if k != |s.slots| then
      var r := Outcome(LayerStack(s.slots[..k] + s.slots[k + 1..], i), [Detach(s.slots[k].id)]);
      var o := Overlays(s);
      assert o[k - i] == p;
      assert forall j :: 0 <= j < k - i ==> o[j] == s.slots[i + j];
      EraseAfterSplit(s.slots, i, k);
      EraseFirstIsRemoveFirst(o, p, k - i);
      r
    else
      assert forall j :: 0 <= j < |Overlays(s)| ==> Overlays(s)[j] == s.slots[i + j];
      RemoveAbsent(Overlays(s), p);
      Outcome(s, [])
  }

  /** Pushing a layer that is not yet a layer and popping it again restores the stack. */
  lemma PushLayerThenPopLayer(s: LayerStack, x: LayerId)
    requires Valid(s)
    requires Live(x) !in Layers(s)
    ensures PushLayer(s, x).hooks + PopLayer(PushLayer(s, x).stack, Live(x)).hooks == [Attach(x), Detach(x)]
    ensures PopLayer(PushLayer(s, x).stack, Live(x)).stack == s
  {
    var t := PushLayer(s, x).stack;
    assert Live(x) in Layers(t) by {
      assert Layers(t)[|Layers(s)|] == Live(x);
    }
    var u := PopLayer(t, Live(x)).stack;
    RemoveLastAppended(Layers(s), Live(x));
    StackDeterminedByRegions(u, s);
  }

  /** Pushing an overlay that is not yet an overlay and popping it again restores the stack. */
  lemma PushOverlayThenPopOverlay(s: LayerStack, x: LayerId)
    requires Valid(s)
    requires Live(x) !in Overlays(s)
    ensures PushOverlay(s, x).hooks + PopOverlay(PushOverlay(s, x).stack, Live(x)).hooks == [Attach(x), Detach(x)]
    ensures PopOverlay(PushOverlay(s, x).stack, Live(x)).stack == s
  {
    var t := PushOverlay(s, x).stack;
    assert Live(x) in Overlays(t) by {
      assert Overlays(t)[|Overlays(s)|] == Live(x);
    }
    var u := PopOverlay(t, Live(x)).stack;
    RemoveLastAppended(Overlays(s), Live(x));
    StackDeterminedByRegions(u, s);
  }

  /** Popping a layer removes one slot holding `p` and keeps every other slot. */
  lemma PopLayerRemovesOne(s: LayerStack, p: Slot)
    requires Valid(s)
    requires p.Null? ==> Null !in Layers(s)
    ensures p in Layers(s) ==> multiset(PopLayer(s, p).stack.slots) + multiset{p} == multiset(s.slots)
  {
    var r := PopLayer(s, p).stack;
    RemoveFirstCounts(Layers(s), p);
    RegionsPartitionStack(s);
    RegionsPartitionStack(r);
  }

  /** Popping an overlay removes one slot holding `p` and keeps every other slot. */
  lemma PopOverlayRemovesOne(s: LayerStack, p: Slot)
    requires Valid(s)
    requires p.Null? ==> Null !in Overlays(s)
    ensures p in Overlays(s) ==> multiset(PopOverlay(s, p).stack.slots) + multiset{p} == multiset(s.slots)
  {
    var r := PopOverlay(s, p).stack;
    RemoveFirstCounts(Overlays(s), p);
    RegionsPartitionStack(s);
    RegionsPartitionStack(r);
  }

  /** The identities of the live slots, in stack order. */
  function LiveIds(xs: seq<Slot>): seq<LayerId>
  {
    if |xs| == 0 then []
    else (if xs[0].Live? then [xs[0].id] else []) + LiveIds(xs[1..])
  }

  /** A sequence read back to front. */
  function Reverse<T>(xs: seq<T>): seq<T>
  {
    seq(|xs|, k requires 0 <= k < |xs| => xs[|xs| - 1 - k])
  }

  /** One `OnDetach` per identity, in the given order. */
  function DetachEach(ids: seq<LayerId>): seq<Hook>
  {
    seq(|ids|, k requires 0 <= k < |ids| => Detach(ids[k]))
  }

  /**
    Walks the slots from last to first, firing `OnDetach` on every non-null
    one, then empties the vector and resets the insert index.
   */
  method Clear(s: LayerStack) returns (r: Outcome)
    ensures Valid(r.stack) && r.stack.slots == [] && r.stack.insertIndex == 0
    ensures r.hooks == DetachEach(Reverse(LiveIds(s.slots)))
  {
    var hooks: seq<Hook> := [];
    var i := |s.slots|;
    while i > 0
      invariant 0 <= i <= |s.slots|
      invariant hooks == DetachEach(Reverse(LiveIds(s.slots[i..])))
      decreases i
    {
      var rest := s.slots[i..];
      assert s.slots[i - 1..] == [s.slots[i - 1]] + rest;
      assert s.slots[i - 1..][1..] == rest;
      var h: seq<LayerId> := if s.slots[i - 1].Live? then [s.slots[i - 1].id] else [];
      assert LiveIds(s.slots[i - 1..]) == h + LiveIds(rest);
      ReverseThenDetachAppend(h, LiveIds(rest));
      if s.slots[i - 1] != Null {
        hooks := hooks + [Detach(s.slots[i - 1].id)];
      }
      i := i - 1;
    }
    r := Outcome(LayerStack([], 0), hooks);
  }

  /** Detaching `h + t` back to front detaches `t` back to front, then `h` (of length at most one). */
  lemma ReverseThenDetachAppend(h: seq<LayerId>, t: seq<LayerId>)
    requires |h| <= 1
    ensures DetachEach(Reverse(h + t)) == DetachEach(Reverse(t)) + DetachEach(h)
  {
    var a := DetachEach(Reverse(h + t));
    var b := DetachEach(Reverse(t)) + DetachEach(h);
    assert |a| == |b|;
    forall k | 0 <= k < |a|
      ensures a[k] == b[k]
    {
      if k < |t| {
        assert (h + t)[|h + t| - 1 - k] == t[|t| - 1 - k];
      }
    }
  }

  /**
    The destructor: a non-empty stack is cleared; an empty one fires
    nothing. Either way every live layer is detached once, last first.
   */
  method Destroy(s: LayerStack) returns (hooks: seq<Hook>)
    ensures hooks == DetachEach(Reverse(LiveIds(s.slots)))
  {
    if |s.slots| != 0 {
      var r := Clear(s);
      hooks := r.hooks;
    } else {
      hooks := [];
    }
  }

  /** The validation hook performs no check and always reports success. */
  function ValidateLayers(s: LayerStack): (ok: bool)
    ensures ok
  {
    true
  }

  /** Pushes keep live layers uniquely owned as long as the pushed layer is not already owned. */
  lemma PushesKeepOwnershipUnique(s: LayerStack, x: LayerId)
    requires Valid(s) && UniqueOwnership(s.slots) && Live(x) !in s.slots
    ensures UniqueOwnership(PushLayer(s, x).stack.slots)
    ensures UniqueOwnership(PushOverlay(s, x).stack.slots)
  {
    var i := s.insertIndex;
    var a := PushLayer(s, x).stack.slots;
    assert a == s.slots[..i] + [Live(x)] + s.slots[i..];
    forall m, n | 0 <= m < n < |a| && a[m].Live?
      ensures a[m] != a[n]
    {
      var m' := if m < i then m else m - 1;
      var n' := if n < i then n else n - 1;
      if m == i {
        assert a[n] == s.slots[n'];
      } else if n == i {
        assert a[m] == s.slots[m'];
      } else {
        assert a[m] == s.slots[m'] && a[n] == s.slots[n'];
      }
    }
  }

  /** Erasing one slot keeps live layers uniquely owned. */
  lemma EraseKeepsOwnershipUnique(xs: seq<Slot>, k: nat)
    requires k < |xs| && UniqueOwnership(xs)
    ensures UniqueOwnership(xs[..k] + xs[k + 1..])
  {
    var a := xs[..k] + xs[k + 1..];
    forall m, n | 0 <= m < n < |a| && a[m].Live?
      ensures a[m] != a[n]
    {
      var m' := if m < k then m else m + 1;
      var n' := if n < k then n else n + 1;
      assert a[m] == xs[m'] && a[n] == xs[n'];
    }
  }

  /** Popping a layer keeps live layers uniquely owned. */
  lemma PopLayerKeepsOwnershipUnique(s: LayerStack, p: Slot)
    requires Valid(s) && UniqueOwnership(s.slots)
    requires p.Null? ==> Null !in Layers(s)
    ensures UniqueOwnership(PopLayer(s, p).stack.slots)
  {
    var k := FindIf(s.slots, 0, s.insertIndex, p);
    if k != s.insertIndex {
      EraseKeepsOwnershipUnique(s.slots, k);
    }
  }

  /** Popping an overlay keeps live layers uniquely owned. */
  lemma PopOverlayKeepsOwnershipUnique(s: LayerStack, p: Slot)
    requires Valid(s) && UniqueOwnership(s.slots)
    requires p.Null? ==> Null !in Overlays(s)
    ensures UniqueOwnership(PopOverlay(s, p).stack.slots)
  {
    var k := FindIf(s.slots, s.insertIndex, |s.slots|, p);
    if k != |s.slots| {
      EraseKeepsOwnershipUnique(s.slots, k);
    }
  }
}

=== FILE: math_types.dfy ===
/**
  The physics engine's small vector type and its two scalar helpers.
  Single-precision floats are modelled as mathematical reals: there is no
  rounding, no NaN and no infinity in this model.
 */
module MathTypes {

  /** A 2D vector; both coordinates default to zero. */
  datatype Vec2 = Vec2(x: real, y: real)

  /** The value of a default-constructed `Vec2`. */
  function Origin(): (v: Vec2)
    ensures v.x == 0.0 && v.y == 0.0
  {
    Vec2(0.0, 0.0)
  }

  /** `Square(x)` multiplies its argument by itself. */
  function Square(x: real): (r: real)
    ensures r >= 0.0
  {
    x * x
  }

  /** The product of two positive reals is positive. */
  lemma MulPos(a: real, b: real)
    requires 0.0 < a && 0.0 < b
    ensures 0.0 < a * b
  {
  }

  /** Multiplying both sides of an inequality by a non-negative factor keeps it. */
  lemma MulMono(a: real, b: real, c: real)
    requires a <= b && 0.0 <= c
    ensures a * c <= b * c
  {
    assert b * c - a * c == (b - a) * c;
  }

  /** Squaring forgets the sign of its argument, and only zero squares to zero. */
  lemma SquareIgnoresSign(x: real)
    ensures Square(-x) == Square(x)
    ensures Square(x) == 0.0 <==> x == 0.0
  {
    assert (-x) * (-x) == x * x;
    if x > 0.0 {
      calc {
        Square(x);
        x * x;
      > { MulPos(x, x); }
        0.0;
      }
    } else if x < 0.0 {
      calc {
        Square(x);
        (-x) * (-x);
      > { MulPos(-x, -x); }
        0.0;
      }
    }
  }

  /** On non-negative reals squaring is monotone, in both directions. */
  lemma SquareMonotone(x: real, y: real)
    requires 0.0 <= x && 0.0 <= y
    ensures x <= y <==> Square(x) <= Square(y)
    ensures x < y <==> Square(x) < Square(y)
  {
    if x < y {
      var d, e := y - x, y + x;
      MulPos(d, e);
      calc {
        Square(y) - Square(x);
        d * e;
      > 0.0;
      }
    } else if y < x {
      var d, e := x - y, x + y;
      MulPos(d, e);
      calc {
        Square(x) - Square(y);
        d * e;
      > 0.0;
      }
    }
  }

  /**
    The radicand that `Distance` hands to the square root: the difference
    on each axis is computed, each is squared in place, and the two squares
    are summed.
   */
  function DistanceRadicand(a: Vec2, b: Vec2): (d2: real)
    ensures d2 >= 0.0
  {
    var x := a.x - b.x;
    var y := a.y - b.y;
    (x * x) + (y * y)
  }

  /** The radicand is the sum of the squared axis differences. */
  lemma RadicandIsSumOfSquares(a: Vec2, b: Vec2)
    ensures DistanceRadicand(a, b) == Square(a.x - b.x) + Square(a.y - b.y)
  {
  }

  /** The radicand does not depend on the order of the points, and it vanishes exactly on equal points. */
  lemma RadicandSymmetric(a: Vec2, b: Vec2)
    ensures DistanceRadicand(a, b) == DistanceRadicand(b, a)
    ensures DistanceRadicand(a, b) == 0.0 <==> a == b
  {
    SquareIgnoresSign(a.x - b.x);
    SquareIgnoresSign(a.y - b.y);
  }

  /**
    `d` is what `Distance(a, b)` returns: the non-negative square root of the
    radicand. The square root itself is left abstract, so distance is a
    relation rather than a function. Such a `d` is zero exactly when the
    two points are equal.
   */
  ghost predicate IsDistance(a: Vec2, b: Vec2, d: real): (r: bool)
    ensures r ==> (d == 0.0 <==> a == b)
  {
    RadicandSymmetric(a, b);
    SquareIgnoresSign(d);
    d >= 0.0 && d * d == DistanceRadicand(a, b)
  }

  /** At most one value is the distance between two points. */
  lemma DistanceUnique(a: Vec2, b: Vec2, d: real, e: real)
    requires IsDistance(a, b, d) && IsDistance(a, b, e)
    ensures d == e
  {
    SquareMonotone(d, e);
    SquareMonotone(e, d);
  }

  /** The distance from a point to itself is zero, and distance is symmetric. */
  lemma DistanceProperties(a: Vec2, b: Vec2, d: real)
    ensures IsDistance(a, a, 0.0)
    ensures IsDistance(a, b, d) <==> IsDistance(b, a, d)
  {
    RadicandSymmetric(a, b);
  }
}

=== FILE: physics_tests.dfy ===
/**
  The regression fixtures of the physics engine's test routine, each
  stated as a fact about the two tests. Every fixture expects the engine's
  polarity: false means colliding, true means apart.
 */
module PhysicsTests {
  import opened MathTypes
  import opened Aabb
  import opened Circles

  /** Three unit circles at the origin against a unit circle 1, 2 and 3 units along X. */
  lemma CircleFixtures()
    ensures !CirclevsCircle(Circle(1.0, Vec2(0.0, 0.0)), Circle(1.0, Vec2(1.0, 0.0)))
    ensures !CirclevsCircle(Circle(1.0, Vec2(0.0, 0.0)), Circle(1.0, Vec2(2.0, 0.0)))
    ensures CirclevsCircle(Circle(1.0, Vec2(0.0, 0.0)), Circle(1.0, Vec2(3.0, 0.0)))
  {
  }

  /** Overlapping, touching on X, touching on Y, apart on X and apart on Y. */
  lemma AabbFixtures()
    ensures !AABBvsAABB(AABB(Vec2(0.0, 0.0), Vec2(2.0, 2.0)), AABB(Vec2(1.0, 1.0), Vec2(3.0, 3.0)))
    ensures !AABBvsAABB(AABB(Vec2(0.0, 0.0), Vec2(1.0, 1.0)), AABB(Vec2(1.0, 0.0), Vec2(2.0, 1.0)))
    ensures !AABBvsAABB(AABB(Vec2(0.0, 0.0), Vec2(1.0, 1.0)), AABB(Vec2(0.0, 1.0), Vec2(1.0, 2.0)))
    ensures AABBvsAABB(AABB(Vec2(0.0, 0.0), Vec2(1.0, 1.0)), AABB(Vec2(2.0, 0.0), Vec2(3.0, 1.0)))
    ensures AABBvsAABB(AABB(Vec2(0.0, 0.0), Vec2(1.0, 1.0)), AABB(Vec2(0.0, 2.0), Vec2(1.0, 3.0)))
  {
  }
}

=== FILE: shape_factory.dfy ===
/**
  The vertex and index data the shape factory builds for its meshes. The
  upload to GPU buffers is not modelled: a mesh here is the vertex list,
  the flat index list (three indices per triangle) and the index count the
  renderer later draws with.
 */
module ShapeFactory {

  /** Largest value of the 32-bit unsigned integer type the factory counts with. */
  const U32_MAX: int := 0xFFFF_FFFF

  type u32 = n: int | 0 <= n <= U32_MAX

  /**
    A vertex: a fixed point, or the rim point of a circle at step `step`.
    `Rim` names a step within one circle mesh: with that mesh's segment
    count it lies at angle 2 pi step / segments on the circle of radius
    0.5, so the same `Rim` value in meshes of different segment counts
    stands for different points.
   */
  datatype Vertex = At(x: real, y: real, z: real) | Rim(step: nat)

  /** The centre of the circle fan. */
  function Centre(): Vertex
  {
    At(0.0, 0.0, 0.0)
  }

  datatype Mesh = Mesh(vertices: seq<Vertex>, indices: seq<nat>, indexCount: nat)

  /** The three indices of triangle `k`. */
  function Triangle(indices: seq<nat>, k: nat): seq<nat>
    requires 3 * k + 3 <= |indices|
  {
    indices[3 * k..3 * k + 3]
  }

  /** A mesh the renderer can draw: whole triangles, the right count, and no index past the vertices. */
  predicate Drawable(m: Mesh)
  {
    && m.indexCount == |m.indices|
    && |m.indices| % 3 == 0
    && forall j :: 0 <= j < |m.indices| ==> m.indices[j] < |m.vertices|
  }

  /** Twice the signed area of a triangle of fixed points; positive when counter-clockwise. */
  function SignedArea2(a: Vertex, b: Vertex, c: Vertex): real
    requires a.At? && b.At? && c.At?
  {
    (b.x - a.x) * (c.y - a.y) - (b.y - a.y) * (c.x - a.x)
  }

  /**
    The triangle mesh: right bottom, centre top and left bottom corners, one
    triangle `{0, 1, 2}`, wound counter-clockwise as the factory promises.
   */
  function CreateTriangle(): (m: Mesh)
    ensures Drawable(m)
    ensures |m.vertices| == 3 && m.indexCount == 3
    ensures Triangle(m.indices, 0) == [0, 1, 2]
    ensures forall v :: v in m.vertices ==> v.At? && v.z == 0.0
    ensures SignedArea2(m.vertices[0], m.vertices[1], m.vertices[2]) > 0.0
  {
    var indices := [0, 1, 2];
    var vertices := [At(0.5, -0.5, 0.0), At(0.0, 0.5, 0.0), At(-0.5, -0.5, 0.0)];
    Mesh(vertices, indices, 3)
  }

  /**
    The circle mesh as a triangle fan: the centre, then `segments + 1` rim
    points (the last one closes the circle where the first one started),
    then for each segment `i` the triangle `(0, i + 1, i + 2)`.
   */
  method CreateCircle(segments: u32) returns (m: Mesh)
    ensures Drawable(m)
    ensures |m.vertices| == segments + 2
    ensures m.vertices[0] == Centre()
    ensures forall j :: 1 <= j < |m.vertices| ==> m.vertices[j] == Rim(j - 1)
    ensures m.indexCount == 3 * segments
    ensures forall k :: 0 <= k < segments ==> Triangle(m.indices, k) == [0, k + 1, k + 2]
    ensures forall k :: 0 <= k < segments ==> TriangleVertices(m, k) == [Centre(), Rim(k), Rim(k + 1)]
  {
    var vertices := [Centre()];
    var i: nat := 0;
    while i <= segments
      invariant i <= segments + 1
      invariant |vertices| == i + 1
      invariant vertices[0] == Centre()
      invariant forall j :: 1 <= j < |vertices| ==> vertices[j] == Rim(j - 1)
    {
      vertices := vertices + [Rim(i)];
      i := i + 1;
    }

    var indices: seq<nat> := [];
    i := 0;
    while i < segments
      invariant i <= segments
      invariant |indices| == 3 * i
      invariant forall j :: 0 <= j < |indices| ==> indices[j] <= i + 1
      invariant forall k :: 0 <= k < i ==> Triangle(indices, k) == [0, k + 1, k + 2]
    {
      var next := indices + [0, i + 1, i + 2];
      assert Triangle(next, i) == [0, i + 1, i + 2];
      forall k | 0 <= k < i
        ensures Triangle(next, k) == [0, k + 1, k + 2]
      {
        assert Triangle(next, k) == Triangle(indices, k);
      }
      indices := next;
      i := i + 1;
    }

    m := Mesh(vertices, indices, |indices|);
    CircleFanStructure(m, segments);
  }

  /** The vertices triangle `k` of a mesh refers to, in order. */
  function TriangleVertices(m: Mesh, k: nat): seq<Vertex>
    requires Drawable(m) && 3 * k + 3 <= |m.indices|
  {
    var t := Triangle(m.indices, k);
    assert t[0] == m.indices[3 * k] && t[1] == m.indices[3 * k + 1] && t[2] == m.indices[3 * k + 2];
    [m.vertices[t[0]], m.vertices[t[1]], m.vertices[t[2]]]
  }

  /**
    Every triangle of the circle fan has the centre as its first corner and
    two consecutive rim points as the others; neighbouring triangles share
    a rim point; zero segments give no triangle at all; the largest index
    used is `segments + 1`, the last rim point.
   */
  lemma CircleFanStructure(m: Mesh, segments: u32)
    requires Drawable(m)
    requires |m.vertices| == segments + 2
    requires m.vertices[0] == Centre()
    requires forall j :: 1 <= j < |m.vertices| ==> m.vertices[j] == Rim(j - 1)
    requires m.indexCount == 3 * segments
    requires forall k :: 0 <= k < segments ==> Triangle(m.indices, k) == [0, k + 1, k + 2]
    ensures forall k :: 0 <= k < segments ==> TriangleVertices(m, k) == [Centre(), Rim(k), Rim(k + 1)]
    ensures forall k :: 0 <= k < segments - 1 ==> Triangle(m.indices, k)[2] == Triangle(m.indices, k + 1)[1]
    ensures segments == 0 <==> m.indices == []
    ensures segments > 0 ==> m.indices[|m.indices| - 1] == segments + 1
  {
    forall k | 0 <= k < segments
      ensures TriangleVertices(m, k) == [Centre(), Rim(k), Rim(k + 1)]
    {
      assert Triangle(m.indices, k) == [0, k + 1, k + 2];
    }
    forall k | 0 <= k < segments - 1
      ensures Triangle(m.indices, k)[2] == Triangle(m.indices, k + 1)[1]
    {
      assert Triangle(m.indices, k) == [0, k + 1, k + 2];
      assert Triangle(m.indices, k + 1) == [0, k + 2, k + 3];
    }
    assert |m.indices| == 3 * segments;
    if segments > 0 {
      var last := segments - 1;
      assert Triangle(m.indices, last) == [0, last + 1, last + 2];
      assert m.indices[|m.indices| - 1] == Triangle(m.indices, last)[2];
    }
  }

  /** The rim loop's 32-bit counter after one increment, wrapping past the largest value to zero. */
  function Increment32(i: u32): u32
  {
    if i == U32_MAX then 0 else i + 1
  }

  /** The rim loop's 32-bit counter after `n` iterations. */
  function RimCounterAfter(n: nat): u32
  {
    if n == 0 then 0 else Increment32(RimCounterAfter(n - 1))
  }

  /** The 32-bit counter after `n` iterations is `n` modulo 2^32. */
  lemma {:induction false} RimCounterWraps(n: nat)
    ensures RimCounterAfter(n) == n % (U32_MAX + 1)
  {
    if n > 0 {
      RimCounterWraps(n - 1);
      SuccessorMod(n - 1);
    }
  }

  /** Counting one further modulo 2^32 wraps from the largest value to zero and adds one otherwise. */
  lemma SuccessorMod(k: nat)
    ensures (k + 1) % (U32_MAX + 1) == if k % (U32_MAX + 1) == U32_MAX then 0 else k % (U32_MAX + 1) + 1
  {
    var q, r := k / (U32_MAX + 1), k % (U32_MAX + 1);
    assert k == q * (U32_MAX + 1) + r;
    if r == U32_MAX {
      assert k + 1 == (q + 1) * (U32_MAX + 1);
    } else {
      assert k + 1 == q * (U32_MAX + 1) + (r + 1);
    }
  }

  /**
    As written, the rim loop counts with a 32-bit counter and continues
    while the counter is at most `segments`. Below the largest value it
    stops after exactly `segments + 1` iterations.
   */
  lemma RimLoopExitsBelowMax(segments: u32, n: nat)
    requires segments < U32_MAX
    ensures n <= segments ==> RimCounterAfter(n) <= segments
    ensures RimCounterAfter(segments + 1) > segments
  {
    RimCounterWraps(n);
    RimCounterWraps(segments + 1);
    if n <= segments {
      assert n % (U32_MAX + 1) == n;
    }
    assert (segments + 1) % (U32_MAX + 1) == segments + 1;
  }

  /**
    As written, with `segments` at the largest 32-bit value the guard holds
    after every number of iterations, and after 2^32 iterations the counter
    is back at zero: the loop never ends.
   */
  lemma RimLoopNeverExitsAtMax(segments: u32, n: nat)
    requires segments == U32_MAX
    ensures RimCounterAfter(n) <= segments
    ensures RimCounterAfter(segments + 1) == 0
  {
    RimCounterWraps(segments + 1);
  }
}
